=== FILE: README.md ===
# claude-code-share log model in Dafny

This project models the core of `claude-code-share`, a read-only web viewer
for the JSONL transcripts an AI coding assistant writes under
`<logRoot>/<slug>/<sessionId>.jsonl`. The model covers the following parts:

- the log parser (`internal/logparser`), which covers slug decoding, entry
  decoding with the string-or-array `content` switch, session
  materialisation as a fold over the lines of a file, and the project and
  session listings;
- the pure decisions of the HTTP layer (`internal/server`): which handler a
  path reaches, how a path is cut into a slug and a session id, when the
  answer is 404 or 500, and `hasText`;
- `isPhysicalInterface` from `main.go`.

Everything is an immutable datatype or a pure function, apart from two
loops modelled as methods: `hasText` and `isPhysicalInterface`. The
modules follow the program's structure:

| module | file | models |
|---|---|---|
| `Wrappers` | wrappers.dfy | `Option` for nil pointers and absent fields, `Result` for `(T, error)` |
| `Strings` | strings.dfy | `strings.HasPrefix/HasSuffix/TrimPrefix/TrimSuffix/Index` and `filepath.Base` |
| `Sequences` | sequences.dfy | sortedness by a key, newest first; a stand-in for `sort.Slice`; the "first non-zero value" rule |
| `Models` | models.dfy | `LogEntry`, `Message`, `MessageContent`, `ContentBlock`, `Usage`, `Project`, `Session`, `Conversation` (internal/logparser/models.go:5-79) |
| `Slug` | slug.dfy | `DecodeSlug` and the client's encoding it inverts |
| `Entry` | entry.dfy | `ParseEntry` over an already-decoded line |
| `Materializer` | materializer.dfy | `ParseSessionFile` |
| `Catalog` | catalog.dfy | `truncate`, `ListSessions`, `ListProjects` |
| `Server` | server.dfy | `Handler`, `handleIndex`, `handleProject`, `handleSession`, `hasText` |
| `NetIf` | netif.dfy | `isPhysicalInterface` |
| `Scenarios` | scenarios.dfy | the parser tests' scenarios, as lemmas |

## Modelling conventions

- Go strings are byte strings, and the model treats a `string` as one
  `char` per byte. All comparisons are bytewise. `truncate` cuts by bytes
  and may split a UTF-8 sequence, as Go does.
- A `time.Time` is an `int`. 0 is the zero time, `IsZero` is `== 0` and
  `a.After(b)` is `a > b`.
- JSON decoding is not modelled. A non-empty line arrives as
  `Entry.RawEntry`: either `Undecodable` (the top-level `json.Unmarshal`
  failed) or the decoded fields plus the runtime shape of
  `message.content`. The shape is a string, an array, or anything else.
  Each array element arrives already decoded as a block. Per
  `encoding/json`'s documented behaviour, an element that does not fit the
  block shape (`Mismatch`) keeps its position in the array and holds the
  fields that did decode (the empty block for a non-object). The decode
  also reports an error, which the parser only logs.
- A file is `Materializer.FileContent`. It either cannot be opened, or it
  gives the sequence of lines the scanner delivered plus whether the
  stream then failed. A line is `Blank` (no bytes), `Oversized` (longer
  than the scanner's 10 MB buffer) or a record.
- A directory is `Catalog.LogRoot`: unreadable, or a list of entries. Each
  entry has a name, whether it is a directory, and its children with the
  outcome of `os.Stat`. The glob `*.jsonl` is `HasSuffix(name, ".jsonl")`,
  since names never contain '/'. The listing of a project is a
  `GlobResult`: either a malformed pattern or the files that matched.
- `sort.Slice` is unstable. It is modelled by an insertion sort, and the
  only claim is the one Go makes: the result is a permutation of the input
  and sorted by the key, newest first.
- The log directory enters the HTTP layer as parameters. `HandleIndex`
  takes the root listing, `HandleProject` the glob result as a function of
  the slug, and `HandleSession` the outcome of loading a session as a
  function of slug and id. `Serve` bundles the three in a
  `Server.Backend`.

### Behaviour worth noting

- **Block decode failures.** A block-decode failure does not empty the
  block list (internal/logparser/parser.go:43-48). The parser keeps
  whatever `json.Unmarshal` filled in: one block per array element, with
  the mismatching elements left partially or wholly empty.
- **Oversized lines.** A line over 10 MB is not skipped on its own. The
  scanner stops with an error, `scanner.Err()` is non-nil, and the whole
  file fails (parser.go:68, 100-102).
- **Session timestamp.** The summary keeps assigning the timestamp while
  it is still zero (parser.go:177-179). The result is therefore the first
  non-zero timestamp, not necessarily that of the first entry.
- **Preview.** The summary goes on past a user entry whose preview is
  empty, one with no text and no blocks (parser.go:180-186). The preview
  therefore comes from the first user entry whose preview is non-empty.
- **Model.** The comment at parser.go:92 says "first assistant message".
  The code takes the first retained entry of any type with a non-empty
  model (parser.go:93-95).

## Model

| member | source | states |
|---|---|---|
| Strings.TrimPrefix | internal/server/handlers.go:31 | when the prefix is present, prefix + result is the input; otherwise the input is returned |
| Strings.TrimSuffix | internal/server/handlers.go:32 | when the suffix is present, result + suffix is the input; otherwise the input is returned |
| Strings.IndexOf | internal/server/handlers.go:60-64 | the result is -1 exactly when the separator is absent; otherwise it is the position of its first occurrence |
| Strings.BaseName | internal/logparser/parser.go:64 | the result is the last element of the path once trailing slashes are dropped (a suffix of it, without '/', preceded by '/' or the start); "/" for a path of slashes only and "." for the empty path |
| Strings.BaseNameOfJoin | internal/logparser/parser.go:64 | the base name of `dir + "/" + name` is `name` whenever `name` is a non-empty path element |
| Sequences.SortDesc | internal/logparser/parser.go:146-148 | the result is a permutation of the input, sorted by descending key (what `sort.Slice` with `After` promises) |
| Sequences.InsertDesc | internal/logparser/parser.go:146-148 | inserting into a sorted sequence keeps it sorted and adds exactly that one element |
| Sequences.FirstNonZero | internal/logparser/parser.go:92-95 | the result is zero iff every element maps to zero; otherwise it is the value of the first element that does not |
| Sequences.FirstNonZeroAppend | internal/logparser/parser.go:92-95 | once a non-zero value is seen, appended elements cannot change it; otherwise the appended part decides |
| Sequences.SortedPair | internal/logparser/parser.go:195-197 | two elements with different keys have only one sorted order, the larger key first |
| Slug.DecodeSlug | internal/logparser/parser.go:21-29 | each character is mapped on its own ('-' to '/', others unchanged); the length is kept, the output has no '-', and "" maps to "" |
| Slug.EncodePath | internal/logparser/parser.go:15-20 | the client's encoding, as the comment at parser.go:16-19 describes it, maps each '/' to '-' and leaves the output free of '/' |
| Slug.DecodeEncode | internal/logparser/parser.go:15-29 | decoding undoes encoding for every path without a literal '-' |
| Slug.EncodeDecode | internal/logparser/parser.go:15-29 | encoding undoes decoding for every slug without a '/' |
| Slug.DecodeIsLossy | internal/logparser/parser_test.go:11-12 | "/a-b" and "/a/b" share a slug, which decodes to "/a/b" |
| Entry.BlocksOf | internal/logparser/parser.go:42-48 | one block per array element, in array order, each holding what its element decoded to |
| Entry.ResolveContent | internal/logparser/parser.go:38-49 | string content gives that text and no blocks; array content gives no text and the blocks in order; any other shape gives empty content; text and blocks are never both present |
| Entry.ParseEntry | internal/logparser/parser.go:32-52 | fails exactly when the top-level decode failed; otherwise every decoded field, `Type` included (noise types too), is kept, the content is what the string-or-array rule resolves the decoded shape to, and it is never both text and blocks |
| Entry.MismatchTolerated | internal/logparser/parser.go:43-48 | an element that fails to decode as a block triggers the warning but not an error, and its position holds the fields that did decode |
| Materializer.Step | internal/logparser/parser.go:70-97 | one loop iteration appends the line's retained entry (if any), adds its usage to the totals, and fills the model only while it is empty |
| Materializer.SessionIdOf | internal/logparser/parser.go:64 | the id is the base name with one trailing ".jsonl" removed, or the base name itself when it has no such suffix |
| Materializer.Kept | internal/logparser/parser.go:70-84 | a line contributes an entry exactly when it is a non-blank record that decodes and whose type is not "progress" or "file-history-snapshot" |
| Materializer.Retained | internal/logparser/parser.go:69-98 | the reference filter yields at most one entry per line |
| Materializer.Fold | internal/logparser/parser.go:69-98 | the left fold over the lines appends exactly the retained entries in file order, adds their input and output tokens, and keeps an already-recorded model (first seen wins) |
| Materializer.InputSumAppend | internal/logparser/parser.go:86-90 | the input and output totals are additive over concatenation |
| Materializer.ParseSessionFile | internal/logparser/parser.go:56-105 | fails exactly on an open error, a stream error or an oversized line (all or nothing); otherwise the entries are the retained lines in order, the totals are their usage sums, the model is the first non-empty one, and the id is the base name minus ".jsonl" |
| Materializer.SessionIdOfJoin | internal/logparser/parser.go:63-65 | a file named "<id>.jsonl" in any directory gets session id <id> |
| Materializer.RetainedMembers | internal/logparser/parser.go:69-98 | an entry is in the conversation iff some line is a decodable, non-noise record that parses to it |
| Materializer.NoNoiseRetained | internal/logparser/parser.go:81-84 | no "progress" or "file-history-snapshot" entry ever reaches a conversation, wherever it stands in the file |
| Materializer.SkippedLineIsInvisible | internal/logparser/parser.go:70-90 | inserting a blank, malformed or noise line anywhere changes no entry, so its usage and model never reach the totals |
| Materializer.CountWithoutNoise | internal/logparser/parser.go:70-79 | without noise lines, N decodable lines among any number of blank or malformed ones give exactly N entries |
| Materializer.ModelNeverOverwritten | internal/logparser/parser.go:92-95 | once a model is recorded, later entries never replace it |
| Materializer.CacheCountersIgnored | internal/logparser/parser.go:87-90 | entries that differ only in their cache counters have the same input and output totals |
| Catalog.Truncate | internal/logparser/parser.go:208-213 | a string of at most `max` bytes is returned unchanged; a longer one becomes its first `max` bytes followed by "...", so the length is at most `max + 3` |
| Catalog.Preview | internal/logparser/parser.go:180-185 | only user entries have a preview; it is empty exactly for a user entry with neither text nor blocks, and it is at most 123 bytes long |
| Catalog.PreviewCases | internal/logparser/parser.go:180-186 | a user entry previews its text (cut to 120 bytes plus "..." when longer), or "(tool results)" when it has only blocks; other entries offer no preview |
| Catalog.SummaryLoop | internal/logparser/parser.go:175-190 | the summary loop, early exit included, yields the first non-zero timestamp and the first non-empty user preview |
| Catalog.Summarize | internal/logparser/parser.go:169-190 | the id, the model and the entry count come from the conversation; the timestamp is the first non-zero one; the preview is the first non-empty user preview |
| Catalog.Loaded | internal/logparser/parser.go:161-167 | files that fail to load are skipped, so there are never more sessions than files |
| Catalog.ListSessions | internal/logparser/parser.go:154-200 | fails only on a malformed glob; otherwise the result is a permutation of the summaries of the files that load, sorted newest first |
| Catalog.LoadedMembers | internal/logparser/parser.go:161-192 | a session is listed iff it is the summary of some file that loads |
| Catalog.SessionFiles | internal/logparser/parser.go:122 | the session files are exactly the entries whose name ends in ".jsonl", each as often as it occurs among the entries |
| Catalog.LatestFrom | internal/logparser/parser.go:127-136 | the last activity is at least the start value (the zero time) and at least every successful stat's mtime, and it is one of those values |
| Catalog.ProjectOf | internal/logparser/parser.go:121-143 | a project's path is `DecodeSlug` of its slug, its session count is the number of session files, and its last activity is the latest successful mtime among them (the zero time if none) |
| Catalog.Projects | internal/logparser/parser.go:114-144 | every project kept has at least one session file and the decoded path of its slug |
| Catalog.ListProjects | internal/logparser/parser.go:108-151 | fails only on an unreadable root; otherwise the result is a permutation of the projects of the directories holding session files, most recent first, each with a count of at least 1 and a decoded path |
| Catalog.ProjectsMembers | internal/logparser/parser.go:115-144 | a project is listed iff it is the project of a directory entry that holds at least one session file |
| Server.Dispatch | internal/server/server.go:43-49 | the "/projects/" subtree goes to the project handler, the "/sessions/" subtree to the session handler, and everything else to the index handler |
| Server.HandleIndex | internal/server/handlers.go:11-27 | 404 iff the path is not exactly "/"; 500 iff it is "/" and the root is unreadable; the index page is shown iff the path is "/" and the root is readable, and it lists the projects sorted most recent first |
| Server.ProjectSlug | internal/server/handlers.go:30-32 | "/projects/" + slug, followed by '/' exactly when the path ends in '/' past the prefix, is the path again |
| Server.TrimmedPath | internal/server/handlers.go:31-32 | the prefix, the result and then '/' exactly when the path ends in '/' past the prefix, rebuild the path |
| Server.SessionParts | internal/server/handlers.go:58-59 | "/sessions/" + parts, followed by '/' exactly when the path ends in '/' past the prefix, is the path again |
| Server.HandleProject | internal/server/handlers.go:29-54 | the answer is the not-found response iff the slug is empty; 500 iff the glob is malformed; the project page is shown iff the slug is non-empty and the glob is well formed, and it lists the sessions sorted newest first under the path `DecodeSlug(slug)` |
| Server.SessionTarget | internal/server/handlers.go:57-70 | a successful split gives a non-empty slug without '/', and a non-empty id (which may contain '/'), that rejoin to the trimmed path |
| Server.SessionTargetComplete | internal/server/handlers.go:58-70 | whenever the trimmed path is `slug + "/" + id` with those constraints, the split finds exactly that slug and id |
| Server.SessionLinkRoundTrip | internal/server/handlers.go:57-70 | the link "/sessions/slug/id", with or without a trailing '/', routes back to that slug and id |
| Server.ProjectLinkRoundTrip | internal/server/handlers.go:30-36 | the link "/projects/slug", with or without a trailing '/', routes back to that slug |
| Server.HandleSession | internal/server/handlers.go:56-90 | 404 iff the path does not split or the load fails (never 500); the session page is shown iff the path splits and the load succeeds, and it shows the loaded conversation and the path `DecodeSlug(slug)` |
| Server.Serve | internal/server/server.go:43-49 | each page is only reached from its own path or subtree; "/" shows the index iff the root is readable, and a path in the "/projects/" or "/sessions/" subtree shows its page under the same conditions as its handler |
| Server.UnknownPathNotFound | internal/server/handlers_test.go:68-79 | a path outside the three subtrees, "/nonexistent", is not found |
| Server.EmptySlugNotFound | internal/server/handlers.go:31-36 | "/projects/" with no slug is not found |
| Server.SlugOnlySessionNotFound | internal/server/handlers.go:58-64 | a session path holding a slug but no '/' and id is not found |
| Server.HasText | internal/server/server.go:65-73 | true iff some block is a "text" block with non-empty text |
| Server.ShowsTextMonotone | internal/server/server.go:66-73 | appending blocks on either side never turns a true answer false |
| Server.ShowsTextOrderFree | internal/server/server.go:66-73 | the answer does not depend on the order of the blocks |
| NetIf.IsPhysicalInterface | main.go:59-71 | true iff the name starts with one of "en", "eth", "wlan", "enp", "wlp" |
| NetIf.EnpIsRedundant | main.go:64 | dropping "enp" from the prefixes changes no answer |
| NetIf.EmptyNameIsVirtual | main.go:64-70 | the empty name is not physical |
| NetIf.NotStartedBy | main.go:64-70 | a name starting with neither 'e' nor 'w' is never physical |
| NetIf.Examples | main.go:59-63 | "en0", "eth0", "wlan0" and "wlp2s0" are physical; "lo0", "docker0" and "utun0" are not |
| Scenarios.SessionFileScenario | internal/logparser/parser_test.go:109-138 | a user line, an assistant line with usage 10/5, a malformed line and a progress line load as 2 entries with totals 10 and 5 and the assistant's model |
| Scenarios.WrittenSessionSummary | internal/logparser/parser_test.go:199-211 | a file shaped like the test helper's, opening with a user line, loads and summarises to that line's timestamp and text, with the id taken from its path |
| Scenarios.LoadedPair | internal/logparser/parser.go:161-192 | two loadable files give their two summaries in glob order |
| Scenarios.LoadedCons | internal/logparser/parser.go:161-167 | a file that loads contributes its summary ahead of the summaries of the files after it |
| Scenarios.ListedPair | internal/logparser/parser.go:154-197 | two loadable files, the second newer, list with the second file's id, timestamp and preview first |
| Scenarios.NewerSessionFirst | internal/logparser/parser.go:195-197 | of two loadable files, the one with the later timestamp is listed first |
| Scenarios.ListSessionsScenario | internal/logparser/parser_test.go:175-197 | the older and newer sessions of the listing test come out newer first, each with its own id and preview |
| Scenarios.SessionFilesAll | internal/logparser/parser.go:122 | when every name ends in ".jsonl", every file is a session file, in order |
| Scenarios.ProjectsPair | internal/logparser/parser.go:114-144 | two project directories give their two projects in directory order |
| Scenarios.NewerProjectFirst | internal/logparser/parser.go:146-148 | of two project directories, the one with the later last activity is listed first |
| Scenarios.ListProjectsScenario | internal/logparser/parser_test.go:140-173 | a project with two session files and one with a single newer file are listed newer first, with session counts 1 and 2 |

## Left out

- File-system access is left out: `os.Open`, `os.ReadDir`, `filepath.Glob`,
  `os.Stat` and the `bufio.Scanner` itself. The directory and file
  contents are parameters. The scanner's line splitting (dropping "\n" and
  "\r\n") is assumed to have happened already.
- A project directory that cannot be read is modelled as an entry with
  no children, because Glob ignores that I/O error.
- Catalog.ListProjects: the glob `<root>/<slug>/*.jsonl` is modelled as a
  suffix test on the slug directory's own children. This assumes the root
  and the slugs contain no `*`, `?`, `[` or `\`. Two consequences are not
  modelled. A slug with an unclosed `[` makes Go's Glob return
  `ErrBadPattern`, which is ignored, so Go drops the project while the
  model lists it. A slug with `*` or `?` makes Go count matching files in
  sibling directories too, while the model counts only the project's own.
- Catalog.ListSessions and Server.HandleProject take the glob's outcome as
  a parameter, so pattern syntax there is part of the given outcome.
- `encoding/json` is left out: syntax, case-insensitive key matching,
  `RFC 3339` timestamp parsing, and the marshal/unmarshal round trip of
  the content array. The decoded fields and content shape are inputs.
- `slog` diagnostics are left out. The block-decode warning is only a
  predicate (`Entry.ContentWarning`).
- HTML templates, `render` (including its 500 on a missing template or a
  failed execution), `formatToolInput`, `New` and `ServeHTTP` are left
  out.
- `http.ServeMux` cleans paths and redirects them: "/projects" goes to
  "/projects/", and paths with "//" or ".." are cleaned. None of this is
  modelled. Dispatch is the longest matching pattern prefix of the path as
  received.
- `LoadSession`'s path join and cleaning are not modelled. The session
  handler takes the outcome of loading as a function of slug and id.
- In `main.go`, everything except `isPhysicalInterface` is left out: flag
  parsing, `defaultLogDir`, `ListenAndServe`, `printStartupInfo` and
  `lanAddresses`. They are OS and network I/O.
- The test helpers `containsString` and `findSubstring` are left out.
- Materializer.Fold: the token totals are unbounded integers. Go's 64-bit
  `int` would wrap around on overflow, and that is not modelled.
- Materializer.ParseSessionFile: the 10 MB limit appears only as the
  `Oversized` line kind. Line lengths are not modelled.
- Slug.EncodePath: the repository describes the client's encoding in two
  ways. The comment at internal/logparser/parser.go:16-19 says '.' is kept
  as is; the comment at internal/logparser/parser_test.go:11-12 says both
  '/' and '.' become '-'. The model follows parser.go:16-19. Under the
  other account Slug.DecodeEncode fails for a path with a '.': "/a.b"
  would encode to "-a-b" and decode to "/a/b". Slug.DecodeIsLossy holds
  under both accounts.

=== FILE: catalog.dfy ===
/** The catalog scanner: project and session listings over an abstract view
    of the log directory. A project directory is given by its name, whether
    it is a directory, and the entries inside it with the outcome of
    stat-ing each; a session listing is given by the session files the
    glob found. */
module Catalog {
  import opened Wrappers
  import opened Strings
  import opened Sequences
  import opened Models
  import opened Slug
  import opened Materializer

  /** Preview length, in bytes. */
  const PreviewLimit: nat := 120

  /** Shown instead of a user entry's text when it has only blocks. */
  const ToolResultsMarker := "(tool results)"

  /** Cuts `s` to its first `max` bytes and appends "..." when it is longer
      than `max`; byte-wise, so a multi-byte character may be split. */
  function Truncate(s: string, max: nat): (r: string)
    ensures |s| <= max ==> r == s
    ensures |s| > max ==> |r| == max + 3 && r[..max] == s[..max] && r[max..] == "..."
    ensures |r| <= max + 3
  {
    if |s| <= max then s else s[..max] + "..."
  }

  // ---------------------------------------------------------------------
  // Sessions

  /** The preview an entry offers: for a user entry, its text, or the
      tool-results marker when it has no text but some blocks, truncated;
      "" for every other entry. */
  function Preview(e: LogEntry): (r: string)
    ensures e.entryType != "user" ==> r == ""
    ensures r == "" <==> e.entryType != "user" || e.message.content == EmptyContent
    ensures |r| <= PreviewLimit + 3
  {
    if e.entryType != "user" then ""
    else
      var content := e.message.content;
      var text := if content.text == "" && |content.blocks| > 0 then ToolResultsMarker else content.text;
      Truncate(text, PreviewLimit)
  }

  /** The preview rules: a user entry shows its text, cut to 120 bytes plus
      "..." when longer; a user entry with no text but some blocks shows the
      tool-results marker; anything else offers no preview. */
  lemma PreviewCases(e: LogEntry)
    ensures e.entryType != "user" ==> Preview(e) == ""
    ensures e.entryType == "user" && e.message.content.text != "" ==>
              Preview(e) == Truncate(e.message.content.text, PreviewLimit)
    ensures e.entryType == "user" && e.message.content.text == "" && |e.message.content.blocks| > 0 ==>
              Preview(e) == ToolResultsMarker
    ensures e.entryType == "user" && e.message.content == EmptyContent ==> Preview(e) == ""
  {
  }

  /** The first non-zero timestamp among the entries (0 if all are zero). */
  function FirstTimestamp(entries: seq<LogEntry>): Time {
    FirstNonZero(entries, (e: LogEntry) => e.timestamp, 0)
  }

  /** The first non-empty preview among the entries ("" if none). */
  function FirstPreview(entries: seq<LogEntry>): string {
    FirstNonZero(entries, Preview, "")
  }

  /** The summary loop over the entries, from loop state (`ts`, `first`),
      including its early exit once both are set. */
  function SummaryLoop(entries: seq<LogEntry>, ts: Time, first: string): (r: (Time, string))
    ensures r.0 == if ts != 0 then ts else FirstTimestamp(entries)
    ensures r.1 == if first != "" then first else FirstPreview(entries)
    decreases |entries|
  {
    if |entries| == 0 then (ts, first)
    else
      var e := entries[0];
      var ts' := if ts == 0 then e.timestamp else ts;
      var first' := if e.entryType == "user" && first == "" then Preview(e) else first;
      assert entries == [e] + entries[1..];
      FirstNonZeroAppend([e], entries[1..], (e: LogEntry) => e.timestamp, 0);
      FirstNonZeroAppend([e], entries[1..], Preview, "");
      if first' != "" && ts' != 0 then (ts', first')
      else SummaryLoop(entries[1..], ts', first')
  }

  /** The listing summary of a loaded conversation. */
  function Summarize(conv: Conversation): (s: Session)
    ensures s.id == conv.sessionId
    ensures s.messageCount == |conv.entries|
    ensures s.model == conv.model
    ensures s.timestamp == FirstTimestamp(conv.entries)
    ensures s.firstMessage == FirstPreview(conv.entries)
  {
    var (ts, first) := SummaryLoop(conv.entries, 0, "");
    Session(conv.sessionId, first, ts, |conv.entries|, conv.model)
  }

  /** The glob of a project directory: a malformed pattern, or the matching
      session files. A directory that does not exist or cannot be read
      matches nothing. */
  datatype GlobResult = BadPattern | Matches(files: seq<SessionFile>)

  datatype GlobError = GlobError

  /** The summaries of the files that load, in glob order. */
  function Loaded(files: seq<SessionFile>): (sessions: seq<Session>)
    ensures |sessions| <= |files|
  {
    if |files| == 0 then []
    else
      match ParseSessionFile(files[0])
      case Success(conv) => [Summarize(conv)] + Loaded(files[1..])
      case Failure(_) => Loaded(files[1..])
  }

  /** The sessions of one project, newest first; files that fail to load are
      skipped and only a malformed glob pattern fails the listing. */
  function ListSessions(glob: GlobResult): (r: Result<seq<Session>, GlobError>)
    ensures r.Failure? <==> glob.BadPattern?
    ensures r.Success? ==> multiset(r.value) == multiset(Loaded(glob.files))
    ensures r.Success? ==> SortedDesc(r.value, (s: Session) => s.timestamp)
  {
    match glob
    case BadPattern => Failure(GlobError)
    case Matches(files) => Success(SortDesc(Loaded(files), (s: Session) => s.timestamp))
  }

  /** A session is listed exactly when it summarises a file that loads. */
  lemma {:induction false} LoadedMembers(files: seq<SessionFile>, s: Session)
    ensures s in Loaded(files) <==>
      exists i :: 0 <= i < |files| && ParseSessionFile(files[i]).Success? &&
                  s == Summarize(ParseSessionFile(files[i]).value)
    decreases |files|
  {
    if |files| > 0 {
      LoadedMembers(files[1..], s);
      if s in Loaded(files[1..]) {
        var i :| 0 <= i < |files[1..]| && ParseSessionFile(files[1..][i]).Success? &&
                 s == Summarize(ParseSessionFile(files[1..][i]).value);
        assert files[1..][i] == files[i + 1];
      }
      if exists i :: 0 <= i < |files| && ParseSessionFile(files[i]).Success? &&
                     s == Summarize(ParseSessionFile(files[i]).value) {
        var i :| 0 <= i < |files| && ParseSessionFile(files[i]).Success? &&
                 s == Summarize(ParseSessionFile(files[i]).value);
        if i > 0 {
          assert files[1..][i - 1] == files[i];
        }
      }
    }
  }

  // ---------------------------------------------------------------------
  // Projects

  /** A directory entry with the outcome of stat-ing it (`None` when the
      stat failed). */
  datatype FileStat = FileStat(name: string, mtime: Option<Time>)

  /** An entry of the log root: its name, whether it is a directory, and
      the entries inside it (none when it cannot be read). */
  datatype DirEntry = DirEntry(name: string, isDir: bool, children: seq<FileStat>)

  /** The log root: unreadable, or its entries. */
  datatype LogRoot = Unreadable | Listing(entries: seq<DirEntry>)

  datatype DirError = DirError

  /** The entries the pattern "*.jsonl" matches: '*' spans any run of bytes
      without '/', and names never contain '/', so these are the names that
      end in ".jsonl". */
  function SessionFiles(children: seq<FileStat>): (r: seq<FileStat>)
    ensures |r| <= |children|
    ensures forall f :: f in r <==> f in children && HasSuffix(f.name, JsonlSuffix)
    ensures forall f :: multiset(r)[f] == if HasSuffix(f.name, JsonlSuffix) then multiset(children)[f] else 0
  {
    if |children| == 0 then []
    else
      assert children == [children[0]] + children[1..];
      assert multiset(children) == multiset{children[0]} + multiset(children[1..]);
      if HasSuffix(children[0].name, JsonlSuffix) then [children[0]] + SessionFiles(children[1..])
      else SessionFiles(children[1..])
  }

  /** The latest modification time, starting from `last`, over the files
      whose stat succeeded: a time replaces the running value only when it
      is after it. */
  function LatestFrom(last: Time, files: seq<FileStat>): (r: Time)
    ensures r >= last
    ensures forall i :: 0 <= i < |files| && files[i].mtime.Some? ==> files[i].mtime.value <= r
    ensures r == last || exists i :: 0 <= i < |files| && files[i].mtime == Some(r)
    decreases |files|
  {
    if |files| == 0 then last
    else
      var next := if files[0].mtime.Some? && files[0].mtime.value > last then files[0].mtime.value else last;
      var r := LatestFrom(next, files[1..]);
      assert forall i :: 1 <= i < |files| ==> files[i] == files[1..][i - 1];
      r
  }

  /** The last activity of a project: the zero time when no stat succeeded. */
  function LastActivity(files: seq<FileStat>): Time {
    LatestFrom(0, files)
  }

  /** A root entry is shown as a project when it is a directory holding at
      least one session file. */
  predicate IsProject(d: DirEntry) {
    d.isDir && |SessionFiles(d.children)| > 0
  }

  function ProjectOf(d: DirEntry): (p: Project)
    ensures p.slug == d.name && p.path == DecodeSlug(d.name)
    ensures p.sessionCount == |SessionFiles(d.children)|
    ensures p.lastActivity == LastActivity(SessionFiles(d.children))
  {
    var files := SessionFiles(d.children);
    Project(d.name, DecodeSlug(d.name), |files|, LastActivity(files))
  }

  /** The projects of the root's entries, in directory order. */
  function Projects(entries: seq<DirEntry>): (ps: seq<Project>)
    ensures forall p :: p in ps ==> p.sessionCount >= 1 && p.path == DecodeSlug(p.slug)
  {
    if |entries| == 0 then []
    else if IsProject(entries[0]) then [ProjectOf(entries[0])] + Projects(entries[1..])
    else Projects(entries[1..])
  }

  /** The project listing, most recent first. Only an unreadable root fails. */
  function ListProjects(root: LogRoot): (r: Result<seq<Project>, DirError>)
    ensures r.Failure? <==> root.Unreadable?
    ensures r.Success? ==> multiset(r.value) == multiset(Projects(root.entries))
    ensures r.Success? ==> SortedDesc(r.value, (p: Project) => p.lastActivity)
    ensures r.Success? ==> forall p :: p in r.value ==> p.sessionCount >= 1 && p.path == DecodeSlug(p.slug)
  {
    match root
    case Unreadable => Failure(DirError)
    case Listing(entries) =>
      var sorted := SortDesc(Projects(entries), (p: Project) => p.lastActivity);
      assert forall p :: p in sorted ==> p in multiset(Projects(entries));
      Success(sorted)
  }

  /** A project is listed exactly when it is the project of a directory
      holding session files. */
  lemma {:induction false} ProjectsMembers(entries: seq<DirEntry>, p: Project)
    ensures p in Projects(entries) <==>
      exists i :: 0 <= i < |entries| && IsProject(entries[i]) && p == ProjectOf(entries[i])
    decreases |entries|
  {
    if |entries| > 0 {
      ProjectsMembers(entries[1..], p);
      if p in Projects(entries[1..]) {
        var i :| 0 <= i < |entries[1..]| && IsProject(entries[1..][i]) && p == ProjectOf(entries[1..][i]);
        assert entries[1..][i] == entries[i + 1];
      }
      if exists i :: 0 <= i < |entries| && IsProject(entries[i]) && p == ProjectOf(entries[i]) {
        var i :| 0 <= i < |entries| && IsProject(entries[i]) && p == ProjectOf(entries[i]);
        if i > 0 {
          assert entries[1..][i - 1] == entries[i];
        }
      }
    }
  }
}

=== FILE: entry.dfy ===
/** The entry decoder: turns the top-level decode of one transcript line
    into a `LogEntry`, resolving the polymorphic `content` field from its
    raw JSON shape. The JSON syntax itself is not modelled: a line arrives
    either as undecodable or as its decoded fields plus the shape of its
    content. */
module Entry {
  import opened Wrappers
  import opened Models

  /** One element of an array-form content after decoding it as a block.
      A `Mismatch` is an element that does not fit the block shape (a
      string, a number, a field of the wrong type): the JSON decoder skips
      what does not fit, keeps the element's position, and reports an
      error; `block` is what was filled in (`EmptyBlock` for a non-object). */
  datatype Element = Decodes(block: ContentBlock) | Mismatch(block: ContentBlock)

  /** The runtime shape of `message.content`: a string, an array, or
      anything else (null, a number, an object, or absent). */
  datatype JsonShape = StringShape(s: string) | ArrayShape(elements: seq<Element>) | OtherShape

  /** The message as decoded before its content is resolved. */
  datatype RawMessage = RawMessage(role: string, model: string, usage: Option<Usage>, content: JsonShape)

  /** A non-empty line after top-level JSON decoding. */
  datatype RawEntry =
    | Undecodable
    | Decoded(
        entryType: string,
        uuid: string,
        parentUuid: Option<string>,
        timestamp: Time,
        sessionId: string,
        version: string,
        cwd: string,
        message: RawMessage)

  datatype DecodeError = DecodeError

  /** The blocks of an array-form content, one per element, in array order. */
  function BlocksOf(elements: seq<Element>): (blocks: seq<ContentBlock>)
    ensures |blocks| == |elements|
    ensures forall i :: 0 <= i < |elements| ==> blocks[i] == elements[i].block
  {
    if |elements| == 0 then []
    else [elements[0].block] + BlocksOf(elements[1..])
  }

  /** Whether resolving the content logs a warning (some element failed to
      decode as a block). The warning never changes the result. */
  predicate ContentWarning(shape: JsonShape) {
    shape.ArrayShape? && exists i :: 0 <= i < |shape.elements| && shape.elements[i].Mismatch?
  }

  /** The content-shape switch: string to text, array to blocks, anything
      else to empty content. */
  function ResolveContent(shape: JsonShape): (c: MessageContent)
    ensures shape.StringShape? ==> c.text == shape.s && c.blocks == []
    ensures shape.ArrayShape? ==> c.text == "" && |c.blocks| == |shape.elements| &&
                                  forall i :: 0 <= i < |c.blocks| ==> c.blocks[i] == shape.elements[i].block
    ensures shape.OtherShape? ==> c == EmptyContent
    ensures c.text == "" || c.blocks == []
  {
    match shape
    case StringShape(s) => MessageContent(s, [])
    case ArrayShape(elements) => MessageContent("", BlocksOf(elements))
    case OtherShape => EmptyContent
  }

  /** Parses one line: fails exactly when the top-level decode failed, and
      otherwise keeps every decoded field and resolves the content. */
  function ParseEntry(raw: RawEntry): (r: Result<LogEntry, DecodeError>)
    ensures r.Failure? <==> raw.Undecodable?
    ensures r.Success? ==>
      var e := r.value;
      && e.entryType == raw.entryType
      && e.uuid == raw.uuid
      && e.parentUuid == raw.parentUuid
      && e.timestamp == raw.timestamp
      && e.sessionId == raw.sessionId
      && e.version == raw.version
      && e.cwd == raw.cwd
      && e.message.role == raw.message.role
      && e.message.model == raw.message.model
      && e.message.usage == raw.message.usage
      && (e.message.content.text == "" || e.message.content.blocks == [])
      && e.message.content == ResolveContent(raw.message.content)
  {
    match raw
    case Undecodable => Failure(DecodeError)
    case Decoded(entryType, uuid, parentUuid, timestamp, sessionId, version, cwd, message) =>
      var content := ResolveContent(message.content);
      Success(LogEntry(entryType, uuid, parentUuid, timestamp, sessionId, version, cwd,
                       Message(message.role, message.model, content, message.usage)))
  }

  /** A block that fails to decode only warns: the entry is still produced,
      with the block in its position holding the fields that did decode. */
  lemma {:induction false} MismatchTolerated(raw: RawEntry, i: nat)
    requires raw.Decoded? && raw.message.content.ArrayShape?
    requires i < |raw.message.content.elements| && raw.message.content.elements[i].Mismatch?
    ensures ContentWarning(raw.message.content)
    ensures ParseEntry(raw).Success?
    ensures ParseEntry(raw).value.message.content.blocks[i] == raw.message.content.elements[i].block
  {
    var c := ResolveContent(raw.message.content);
    assert c.blocks[i] == raw.message.content.elements[i].block;
  }
}

=== FILE: materializer.dfy ===
/** The session materializer: loading one transcript file into a
    `Conversation`. A file is the sequence of lines the scanner delivered
    plus whether the stream then failed; the load is a left fold over the
    lines that drops blank, malformed and noise lines, and is all or
    nothing at the level of the file. */
module Materializer {
  import opened Wrappers
  import opened Strings
  import opened Sequences
  import opened Models
  import opened Entry

  /** A line as the scanner delivers it. `Blank` is a line with no bytes
      (after the scanner drops "\n" or "\r\n"); `Oversized` is a line over
      the scanner's 10 MB buffer, which stops the scan with an error. */
  datatype Line = Blank | Oversized | Record(raw: RawEntry)

  /** A transcript file: it could not be opened, or it delivered `lines`
      and then ended normally or with a read error. */
  datatype FileContent = OpenFailed | Opened(lines: seq<Line>, readError: bool)

  datatype SessionFile = SessionFile(path: string, content: FileContent)

  datatype IOError = OpenError | ScanError

  const JsonlSuffix := ".jsonl"

  /** The entry types that never reach any aggregate. */
  predicate IsNoise(entryType: string) {
    entryType == "progress" || entryType == "file-history-snapshot"
  }

  /** The entry a line contributes: present exactly for a non-blank line
      that decodes and is not noise. */
  function Kept(line: Line): (r: Option<LogEntry>)
    ensures r.Some? <==> line.Record? && line.raw.Decoded? && !IsNoise(line.raw.entryType)
    ensures r.Some? ==> ParseEntry(line.raw) == Success(r.value)
  {
    match line
    case Record(raw) =>
      var parsed := ParseEntry(raw);
      if parsed.Failure? || IsNoise(parsed.value.entryType) then None else Some(parsed.value)
    case _ => None
  }

  /** Reference definition of the retained entries: the kept lines, in
      file order. */
  function Retained(lines: seq<Line>): (entries: seq<LogEntry>)
    ensures |entries| <= |lines|
  {
    if |lines| == 0 then []
    else
      match Kept(lines[0])
      case Some(e) => [e] + Retained(lines[1..])
      case None => Retained(lines[1..])
  }

  function UsageInput(e: LogEntry): int {
    if e.message.usage.Some? then e.message.usage.value.inputTokens else 0
  }

  function UsageOutput(e: LogEntry): int {
    if e.message.usage.Some? then e.message.usage.value.outputTokens else 0
  }

  /** Sum of the input tokens of the entries that carry a usage object. */
  function InputSum(entries: seq<LogEntry>): int {
    if |entries| == 0 then 0 else UsageInput(entries[0]) + InputSum(entries[1..])
  }

  /** Sum of the output tokens of the entries that carry a usage object. */
  function OutputSum(entries: seq<LogEntry>): int {
    if |entries| == 0 then 0 else UsageOutput(entries[0]) + OutputSum(entries[1..])
  }

  /** The model of the first entry whose model is non-empty, or "". */
  function FirstModel(entries: seq<LogEntry>): string {
    FirstNonZero(entries, (e: LogEntry) => e.message.model, "")
  }

  /** One iteration of the scan loop. */
  function Step(conv: Conversation, line: Line): (r: Conversation)
    ensures r.sessionId == conv.sessionId
    ensures r.entries == conv.entries + Retained([line])
    ensures r.totalInput == conv.totalInput + InputSum(Retained([line]))
    ensures r.totalOutput == conv.totalOutput + OutputSum(Retained([line]))
    ensures r.model == if conv.model != "" then conv.model else FirstModel(Retained([line]))
  {
    match Kept(line)
    case None => conv
    case Some(e) =>
      var usage := e.message.usage;
      Conversation(
        conv.sessionId,
        conv.entries + [e],
        if usage.Some? then conv.totalInput + usage.value.inputTokens else conv.totalInput,
        if usage.Some? then conv.totalOutput + usage.value.outputTokens else conv.totalOutput,
        if conv.model == "" && e.message.model != "" then e.message.model else conv.model)
  }

  lemma {:induction false} InputSumAppend(xs: seq<LogEntry>, ys: seq<LogEntry>)
    ensures InputSum(xs + ys) == InputSum(xs) + InputSum(ys)
    ensures OutputSum(xs + ys) == OutputSum(xs) + OutputSum(ys)
    decreases |xs|
  {
    if |xs| == 0 {
      assert xs + ys == ys;
    } else {
      assert (xs + ys)[1..] == xs[1..] + ys;
      InputSumAppend(xs[1..], ys);
    }
  }

  /** The scan loop from a given accumulator: appends the retained entries,
      adds their token counts, and keeps the accumulator's model if it has
      one. */
  function Fold(conv: Conversation, lines: seq<Line>): (r: Conversation)
    ensures r.sessionId == conv.sessionId
    ensures r.entries == conv.entries + Retained(lines)
    ensures r.totalInput == conv.totalInput + InputSum(Retained(lines))
    ensures r.totalOutput == conv.totalOutput + OutputSum(Retained(lines))
    ensures r.model == if conv.model != "" then conv.model else FirstModel(Retained(lines))
    decreases |lines|
  {
    if |lines| == 0 then conv
    else
      var next := Step(conv, lines[0]);
      var r := Fold(next, lines[1..]);
      assert r.entries == conv.entries + Retained(lines) by {
        if Kept(lines[0]).Some? {
          assert conv.entries + [Kept(lines[0]).value] + Retained(lines[1..]) ==
                 conv.entries + ([Kept(lines[0]).value] + Retained(lines[1..]));
        }
      }
      assert r.totalInput == conv.totalInput + InputSum(Retained(lines)) by {
        if Kept(lines[0]).Some? {
          InputSumAppend([Kept(lines[0]).value], Retained(lines[1..]));
        }
      }
      assert r.totalOutput == conv.totalOutput + OutputSum(Retained(lines)) by {
        if Kept(lines[0]).Some? {
          InputSumAppend([Kept(lines[0]).value], Retained(lines[1..]));
        }
      }
      assert r.model == if conv.model != "" then conv.model else FirstModel(Retained(lines)) by {
        if Kept(lines[0]).Some? {
          FirstNonZeroAppend([Kept(lines[0]).value], Retained(lines[1..]),
                             (e: LogEntry) => e.message.model, "");
        }
      }
      r
  }

  predicate HasOversized(lines: seq<Line>) {
    exists i :: 0 <= i < |lines| && lines[i].Oversized?
  }

  /** The session identifier: the file's base name minus one ".jsonl". */
  function SessionIdOf(path: string): (id: string)
    ensures HasSuffix(BaseName(path), JsonlSuffix) ==> id + JsonlSuffix == BaseName(path)
    ensures !HasSuffix(BaseName(path), JsonlSuffix) ==> id == BaseName(path)
    ensures '/' !in id || id == "/"
  {
    TrimSuffix(BaseName(path), JsonlSuffix)
  }

  /** A session file named "<id>.jsonl" inside any directory gets the
      identifier <id>. */
  lemma SessionIdOfJoin(dir: string, id: string)
    requires '/' !in id
    ensures SessionIdOf(dir + "/" + id + JsonlSuffix) == id
  {
    var name := id + JsonlSuffix;
    assert '/' !in name by {
      assert forall k :: 0 <= k < |JsonlSuffix| ==> JsonlSuffix[k] != '/';
      assert forall k :: 0 <= k < |name| ==> name[k] != '/' by {
        forall k | 0 <= k < |name| ensures name[k] != '/' {
          if k < |id| {
            assert name[k] == id[k];
          } else {
            assert name[k] == JsonlSuffix[k - |id|];
          }
        }
      }
    }
    assert dir + "/" + id + JsonlSuffix == dir + "/" + name;
    BaseNameOfJoin(dir, name);
    assert HasSuffix(name, JsonlSuffix);
  }

  /** Loads one transcript file. It fails when the file cannot be opened or
      the scan ends in an error; otherwise the conversation holds exactly
      the retained entries in file order, their token totals and the first
      model name among them. */
  function ParseSessionFile(file: SessionFile): (r: Result<Conversation, IOError>)
    ensures r.Failure? <==> file.content.OpenFailed? || file.content.readError || HasOversized(file.content.lines)
    ensures r.Success? ==>
      var conv := r.value;
      && conv.sessionId == SessionIdOf(file.path)
      && conv.entries == Retained(file.content.lines)
      && conv.totalInput == InputSum(conv.entries)
      && conv.totalOutput == OutputSum(conv.entries)
      && conv.model == FirstModel(conv.entries)
  {
    match file.content
    case OpenFailed => Failure(OpenError)
    case Opened(lines, readError) =>
      var conv := Fold(Conversation(SessionIdOf(file.path), [], 0, 0, ""), lines);
      if readError || HasOversized(lines) then Failure(ScanError) else Success(conv)
  }

  /** Every retained entry comes from a kept line, and every kept line is
      retained: the entries are exactly the non-blank, decodable, non-noise
      lines. */
  lemma {:induction false} RetainedMembers(lines: seq<Line>, e: LogEntry)
    ensures e in Retained(lines) <==> exists i :: 0 <= i < |lines| && Kept(lines[i]) == Some(e)
    decreases |lines|
  {
    if |lines| > 0 {
      RetainedMembers(lines[1..], e);
      if e in Retained(lines[1..]) {
        var i :| 0 <= i < |lines[1..]| && Kept(lines[1..][i]) == Some(e);
        assert Kept(lines[i + 1]) == Some(e);
      }
      if exists i :: 0 <= i < |lines| && Kept(lines[i]) == Some(e) {
        var i :| 0 <= i < |lines| && Kept(lines[i]) == Some(e);
        if i > 0 {
          assert Kept(lines[1..][i - 1]) == Some(e);
        }
      }
    }
  }

  /** No noise entry ever reaches a conversation, wherever it stands in the file. */
  lemma NoNoiseRetained(lines: seq<Line>)
    ensures forall e :: e in Retained(lines) ==> !IsNoise(e.entryType)
  {
    forall e | e in Retained(lines) ensures !IsNoise(e.entryType) {
      RetainedMembers(lines, e);
    }
  }

  /** A line that contributes nothing (blank, undecodable or noise) can be
      inserted anywhere without changing the retained entries, so neither
      its usage nor its model ever reaches the totals. */
  lemma {:induction false} SkippedLineIsInvisible(before: seq<Line>, x: Line, after: seq<Line>)
    requires Kept(x).None?
    ensures Retained(before + [x] + after) == Retained(before + after)
    decreases |before|
  {
    if |before| == 0 {
      assert before + [x] + after == [x] + after;
      assert ([x] + after)[1..] == after;
      assert before + after == after;
    } else {
      assert (before + [x] + after)[0] == before[0];
      assert (before + [x] + after)[1..] == before[1..] + [x] + after;
      assert (before + after)[0] == before[0];
      assert (before + after)[1..] == before[1..] + after;
      SkippedLineIsInvisible(before[1..], x, after);
    }
  }

  /** Number of lines that decode, noise included. */
  function DecodableCount(lines: seq<Line>): nat {
    if |lines| == 0 then 0
    else (if lines[0].Record? && lines[0].raw.Decoded? then 1 else 0) + DecodableCount(lines[1..])
  }

  /** With no noise lines present, a file of N decodable lines and any number
      of blank or malformed ones yields exactly N entries. */
  lemma {:induction false} CountWithoutNoise(lines: seq<Line>)
    requires forall i :: 0 <= i < |lines| && lines[i].Record? && lines[i].raw.Decoded? ==>
               !IsNoise(lines[i].raw.entryType)
    ensures |Retained(lines)| == DecodableCount(lines)
    decreases |lines|
  {
    if |lines| > 0 {
      assert forall i :: 0 <= i < |lines[1..]| ==> lines[1..][i] == lines[i + 1];
      CountWithoutNoise(lines[1..]);
    }
  }

  /** First seen wins: once a model is recorded, later entries never
      replace it. */
  lemma ModelNeverOverwritten(xs: seq<LogEntry>, ys: seq<LogEntry>)
    requires FirstModel(xs) != ""
    ensures FirstModel(xs + ys) == FirstModel(xs)
  {
    FirstNonZeroAppend(xs, ys, (e: LogEntry) => e.message.model, "");
  }

  /** The entry with both cache counters of its usage (if any) set to zero. */
  function WithoutCache(e: LogEntry): LogEntry {
    match e.message.usage
    case None => e
    case Some(u) => e.(message := e.message.(usage := Some(u.(cacheCreationInputTokens := 0, cacheReadInputTokens := 0))))
  }

  /** The cache counters never reach the totals: entries that differ only in
      them have the same input and output sums. */
  lemma {:induction false} CacheCountersIgnored(xs: seq<LogEntry>, ys: seq<LogEntry>)
    requires |xs| == |ys|
    requires forall i :: 0 <= i < |xs| ==> WithoutCache(xs[i]) == WithoutCache(ys[i])
    ensures InputSum(xs) == InputSum(ys)
    ensures OutputSum(xs) == OutputSum(ys)
    decreases |xs|
  {
    if |xs| > 0 {
      assert WithoutCache(xs[0]) == WithoutCache(ys[0]);
      assert UsageInput(xs[0]) == UsageInput(ys[0]);
      assert UsageOutput(xs[0]) == UsageOutput(ys[0]);
      CacheCountersIgnored(xs[1..], ys[1..]);
    }
  }
}

=== FILE: models.dfy ===
/** The value types of the log model: one transcript line (`LogEntry`), its
    message and content, token usage, and the derived project, session and
    conversation summaries. Strings are byte strings; times are integers
    with 0 standing for Go's zero `time.Time`. */
module Models {
  import opened Wrappers

  /** A point in time; 0 is the zero time (`IsZero`), and `a.After(b)` is `a > b`. */
  type Time = int

  /** An arbitrary JSON value, kept opaquely where the log stores free-form data. */
  datatype JsonValue =
    | JNull
    | JBool(b: bool)
    | JNumber(n: real)
    | JString(s: string)
    | JArray(items: seq<JsonValue>)
    | JObject(members: seq<(string, JsonValue)>)

  /** Four independent token counters; Go `int`s, so they may be negative
      if the log says so. */
  datatype Usage = Usage(
    inputTokens: int,
    outputTokens: int,
    cacheCreationInputTokens: int,
    cacheReadInputTokens: int)

  /** One element of an array-form content. Only `blockType` is nominally
      required; every other field is empty when absent from the JSON. */
  datatype ContentBlock = ContentBlock(
    blockType: string,
    text: string,
    id: string,
    name: string,
    input: seq<(string, JsonValue)>,
    toolUseId: string,
    content: JsonValue)

  /** The block every field of which is absent. */
  const EmptyBlock := ContentBlock("", "", "", "", [], "", JNull)

  /** Content as plain text (string form) or as blocks (array form). */
  datatype MessageContent = MessageContent(text: string, blocks: seq<ContentBlock>)

  const EmptyContent := MessageContent("", [])

  /** A message; `usage` is `None` when the JSON has no usage object, which
      is not the same as a usage object of zeros. */
  datatype Message = Message(
    role: string,
    model: string,
    content: MessageContent,
    usage: Option<Usage>)

  /** One decoded transcript line. */
  datatype LogEntry = LogEntry(
    entryType: string,
    uuid: string,
    parentUuid: Option<string>,
    timestamp: Time,
    sessionId: string,
    version: string,
    cwd: string,
    message: Message)

  /** One project directory: its slug, the decoded workspace path, the number
      of session files and the latest modification time among them. */
  datatype Project = Project(
    slug: string,
    path: string,
    sessionCount: nat,
    lastActivity: Time)

  /** The summary of one session file shown in a project listing. */
  datatype Session = Session(
    id: string,
    firstMessage: string,
    timestamp: Time,
    messageCount: nat,
    model: string)

  /** A fully loaded session: the retained entries in file order, the input
      and output token totals and the first model name seen. */
  datatype Conversation = Conversation(
    sessionId: string,
    entries: seq<LogEntry>,
    totalInput: int,
    totalOutput: int,
    model: string)
}

=== FILE: netif.dfy ===
/** The startup banner's filter on network interface names: an interface is
    taken as physical (Wi-Fi or Ethernet) when its name starts with one of
    a fixed list of prefixes. */
module NetIf {
  import opened Strings

  /** The prefixes in the order they are tried. */
  const PhysicalPrefixes: seq<string> := ["en", "eth", "wlan", "enp", "wlp"]

  /** Whether some prefix of `prefixes` starts `name`. */
  predicate StartsWithAny(name: string, prefixes: seq<string>) {
    exists i :: 0 <= i < |prefixes| && HasPrefix(name, prefixes[i])
  }

  /** `isPhysicalInterface`: tries the prefixes in order and stops at the
      first match. */
  method IsPhysicalInterface(name: string) returns (physical: bool)
    ensures physical <==> StartsWithAny(name, PhysicalPrefixes)
  {
    var i := 0;
    while i < |PhysicalPrefixes|
      invariant 0 <= i <= |PhysicalPrefixes|
      invariant forall j :: 0 <= j < i ==> !HasPrefix(name, PhysicalPrefixes[j])
    {
      if HasPrefix(name, PhysicalPrefixes[i]) {
        return true;
      }
      i := i + 1;
    }
    return false;
  }

  /** The "enp" prefix is redundant: every name it accepts already starts
      with "en", so the list without it accepts exactly the same names. */
  lemma EnpIsRedundant(name: string)
    ensures StartsWithAny(name, PhysicalPrefixes) <==>
            StartsWithAny(name, ["en", "eth", "wlan", "wlp"])
  {
    var short: seq<string> := ["en", "eth", "wlan", "wlp"];
    if HasPrefix(name, "enp") {
      assert name[..2] == name[..3][..2];
      assert HasPrefix(name, short[0]);
    }
    if StartsWithAny(name, PhysicalPrefixes) {
      var i :| 0 <= i < |PhysicalPrefixes| && HasPrefix(name, PhysicalPrefixes[i]);
      if i == 3 {
        assert HasPrefix(name, short[0]);
      } else {
        assert HasPrefix(name, short[if i < 3 then i else 3]);
      }
    }
    if StartsWithAny(name, short) {
      var i :| 0 <= i < |short| && HasPrefix(name, short[i]);
      assert HasPrefix(name, PhysicalPrefixes[if i < 3 then i else 4]);
    }
  }

  /** Every prefix is non-empty, so the empty name is never physical. */
  lemma EmptyNameIsVirtual()
    ensures !StartsWithAny("", PhysicalPrefixes)
  {
    forall i | 0 <= i < |PhysicalPrefixes|
      ensures !HasPrefix("", PhysicalPrefixes[i])
    {
      assert |PhysicalPrefixes[i]| > 0;
    }
  }

  /** Names from the comments of the source: Wi-Fi and Ethernet names are
      physical, loopback, Docker and VPN tunnel names are not. */
  lemma Examples()
    ensures StartsWithAny("en0", PhysicalPrefixes)
    ensures StartsWithAny("eth0", PhysicalPrefixes)
    ensures StartsWithAny("wlan0", PhysicalPrefixes)
    ensures StartsWithAny("wlp2s0", PhysicalPrefixes)
    ensures !StartsWithAny("lo0", PhysicalPrefixes)
    ensures !StartsWithAny("docker0", PhysicalPrefixes)
    ensures !StartsWithAny("utun0", PhysicalPrefixes)
  {
    assert HasPrefix("en0", PhysicalPrefixes[0]);
    assert HasPrefix("eth0", PhysicalPrefixes[1]);
    assert HasPrefix("wlan0", PhysicalPrefixes[2]);
    assert HasPrefix("wlp2s0", PhysicalPrefixes[4]);
    NotStartedBy("lo0");
    NotStartedBy("docker0");
    NotStartedBy("utun0");
  }

  /** A name whose first letter is none of 'e' and 'w' is not physical. */
  lemma NotStartedBy(name: string)
    requires |name| > 0 && name[0] != 'e' && name[0] != 'w'
    ensures !StartsWithAny(name, PhysicalPrefixes)
  {
    forall i | 0 <= i < |PhysicalPrefixes|
      ensures !HasPrefix(name, PhysicalPrefixes[i])
    {
      assert PhysicalPrefixes[i][0] == 'e' || PhysicalPrefixes[i][0] == 'w';
    }
  }
}

=== FILE: scenarios.dfy ===
/** Worked scenarios from the repository's tests, stated over the model. */
module Scenarios {
  import opened Wrappers
  import opened Strings
  import opened Sequences
  import opened Models
  import opened Entry
  import opened Materializer
  import opened Catalog

  function UserLine(ts: Time, text: string): Line {
    Record(Decoded("user", "u1", None, ts, "sess-1", "", "",
                   RawMessage("user", "", None, StringShape(text))))
  }

  function AssistantLine(ts: Time): Line {
    var block := ContentBlock("text", "Hello!", "", "", [], "", JNull);
    Record(Decoded("assistant", "a1", None, ts, "sess-1", "", "",
                   RawMessage("assistant", "claude-opus-4-6", Some(Usage(10, 5, 0, 0)),
                              ArrayShape([Decodes(block)]))))
  }

  function ProgressLine(ts: Time): Line {
    Record(Decoded("progress", "c", None, ts, "sess-1", "", "", RawMessage("", "", None, OtherShape)))
  }

  /** A user line, an assistant line with usage, a malformed line and a
      progress line load as two entries with totals 10 and 5 and the
      assistant's model. */
  lemma SessionFileScenario()
    ensures
      var r := ParseSessionFile(SessionFile("/tmp/sess-1.jsonl",
                 Opened([UserLine(1, "Hi"), AssistantLine(2), Record(Undecodable), ProgressLine(3)], false)));
      && r.Success?
      && |r.value.entries| == 2
      && r.value.totalInput == 10
      && r.value.totalOutput == 5
      && r.value.model == "claude-opus-4-6"
  {
    var lines := [UserLine(1, "Hi"), AssistantLine(2), Record(Undecodable), ProgressLine(3)];
    assert !HasOversized(lines);
    assert lines[1..][1..] == [Record(Undecodable), ProgressLine(3)];
    var entries := Retained(lines);
    assert |entries| == 2;
    assert entries[1].message.model == "claude-opus-4-6";
  }

  function WrittenSession(path: string, ts: Time, text: string): SessionFile {
    SessionFile(path, Opened([UserLine(ts, text), AssistantLine(ts)], false))
  }

  /** A file that opens with a user line summarises to that line's timestamp
      and text. */
  lemma WrittenSessionSummary(path: string, ts: Time, text: string)
    requires ts != 0 && text != "" && |text| <= PreviewLimit
    ensures ParseSessionFile(WrittenSession(path, ts, text)).Success?
    ensures Summarize(ParseSessionFile(WrittenSession(path, ts, text)).value).timestamp == ts
    ensures Summarize(ParseSessionFile(WrittenSession(path, ts, text)).value).firstMessage == text
    ensures Summarize(ParseSessionFile(WrittenSession(path, ts, text)).value).id == SessionIdOf(path)
  {
    var f := WrittenSession(path, ts, text);
    var lines := f.content.lines;
    assert !HasOversized(lines) by {
      assert !lines[0].Oversized? && !lines[1].Oversized?;
    }
    var e := Kept(lines[0]).value;
    assert e.timestamp == ts && e.entryType == "user" && e.message.content.text == text;
    var entries := Retained(lines);
    assert entries == [e] + Retained(lines[1..]);
    assert Preview(e) == text;
    assert FirstTimestamp(entries) == ts;
    assert FirstPreview(entries) == text;
  }

  /** Two loadable files list as their two summaries, in glob order,
      before sorting. */
  lemma {:induction false} LoadedPair(a: SessionFile, b: SessionFile)
    requires ParseSessionFile(a).Success? && ParseSessionFile(b).Success?
    ensures Loaded([a, b]) == [Summarize(ParseSessionFile(a).value), Summarize(ParseSessionFile(b).value)]
  {
    LoadedCons(b, []);
    LoadedCons(a, [b]);
    PairDisplay(a, b);
    PairDisplay(Summarize(ParseSessionFile(a).value), Summarize(ParseSessionFile(b).value));
  }

  /** A two-element display built by concatenation. */
  lemma PairDisplay<T>(x: T, y: T)
    ensures [y] + [] == [y]
    ensures [x] + [y] == [x, y]
    ensures [x] + ([y] + []) == [x, y]
  {
  }

  /** A file that loads contributes its summary ahead of the rest. */
  lemma {:induction false} LoadedCons(f: SessionFile, rest: seq<SessionFile>)
    requires ParseSessionFile(f).Success?
    ensures Loaded([f] + rest) == [Summarize(ParseSessionFile(f).value)] + Loaded(rest)
  {
    assert ([f] + rest)[1..] == rest;
  }

  /** Of two loadable session files, the one with the later timestamp is
      listed first, whatever the glob order. */
  lemma {:induction false} NewerSessionFirst(a: SessionFile, b: SessionFile)
    requires ParseSessionFile(a).Success? && ParseSessionFile(b).Success?
    requires Summarize(ParseSessionFile(a).value).timestamp < Summarize(ParseSessionFile(b).value).timestamp
    ensures ListSessions(Matches([a, b])) ==
            Success([Summarize(ParseSessionFile(b).value), Summarize(ParseSessionFile(a).value)])
  {
    var sa := Summarize(ParseSessionFile(a).value);
    var sb := Summarize(ParseSessionFile(b).value);
    LoadedPair(a, b);
    var r := ListSessions(Matches([a, b])).value;
    assert multiset(r) == multiset{sa, sb};
    SortedPair(r, sa, sb, (s: Session) => s.timestamp);
  }

  /** The repository's listing test: sessions "a" (older) and "b" (newer),
      each opening with a user line, are listed "b" first with its own first
      message as preview. */
  lemma ListSessionsScenario(pa: string, pb: string, ta: Time, tb: Time, xa: string, xb: string)
    requires 0 < ta < tb
    requires xa != "" && |xa| <= PreviewLimit && xb != "" && |xb| <= PreviewLimit
    ensures
      var r := ListSessions(Matches([WrittenSession(pa, ta, xa), WrittenSession(pb, tb, xb)]));
      && r.Success?
      && |r.value| == 2
      && r.value[0].id == SessionIdOf(pb) && r.value[1].id == SessionIdOf(pa)
      && r.value[0].timestamp == tb && r.value[0].firstMessage == xb
      && r.value[1].timestamp == ta && r.value[1].firstMessage == xa
  {
    WrittenSessionSummary(pa, ta, xa);
    WrittenSessionSummary(pb, tb, xb);
    ListedPair(WrittenSession(pa, ta, xa), WrittenSession(pb, tb, xb), SessionIdOf(pa), SessionIdOf(pb), ta, tb, xa, xb);
  }

  /** Two loadable files whose summaries carry the given ids, timestamps and
      previews, the second one newer, are listed second file first. */
  lemma {:induction false} ListedPair(a: SessionFile, b: SessionFile, ia: string, ib: string,
                                      ta: Time, tb: Time, xa: string, xb: string)
    requires ParseSessionFile(a).Success? && ParseSessionFile(b).Success?
    requires Summarize(ParseSessionFile(a).value).id == ia
    requires Summarize(ParseSessionFile(a).value).timestamp == ta
    requires Summarize(ParseSessionFile(a).value).firstMessage == xa
    requires Summarize(ParseSessionFile(b).value).id == ib
    requires Summarize(ParseSessionFile(b).value).timestamp == tb
    requires Summarize(ParseSessionFile(b).value).firstMessage == xb
    requires ta < tb
    ensures
      var r := ListSessions(Matches([a, b]));
      && r.Success?
      && |r.value| == 2
      && r.value[0].id == ib && r.value[1].id == ia
      && r.value[0].timestamp == tb && r.value[0].firstMessage == xb
      && r.value[1].timestamp == ta && r.value[1].firstMessage == xa
  {
    NewerSessionFirst(a, b);
  }

  /** Files whose names all end in ".jsonl" are all session files. */
  lemma {:induction false} SessionFilesAll(files: seq<FileStat>)
    requires forall i :: 0 <= i < |files| ==> HasSuffix(files[i].name, JsonlSuffix)
    ensures SessionFiles(files) == files
  {
    if |files| > 0 {
      assert forall i :: 0 <= i < |files[1..]| ==> files[1..][i] == files[i + 1];
      SessionFilesAll(files[1..]);
      assert files == [files[0]] + files[1..];
    }
  }

  lemma {:induction false} ProjectsPair(d1: DirEntry, d2: DirEntry)
    requires IsProject(d1) && IsProject(d2)
    ensures Projects([d1, d2]) == [ProjectOf(d1), ProjectOf(d2)]
  {
    assert [d1, d2][0] == d1;
    assert [d1, d2][1..] == [d2];
    assert [d2][1..] == [];
    assert Projects([d2]) == [ProjectOf(d2)] + Projects([]);
  }

  /** Of two project directories, the one whose session files were modified
      last is listed first, whatever the directory order. */
  lemma {:induction false} NewerProjectFirst(d1: DirEntry, d2: DirEntry)
    requires IsProject(d1) && IsProject(d2)
    requires LastActivity(SessionFiles(d1.children)) < LastActivity(SessionFiles(d2.children))
    ensures ListProjects(Listing([d1, d2])) == Success([ProjectOf(d2), ProjectOf(d1)])
  {
    ProjectsPair(d1, d2);
    var r := ListProjects(Listing([d1, d2])).value;
    assert multiset(r) == multiset{ProjectOf(d1), ProjectOf(d2)};
    SortedPair(r, ProjectOf(d1), ProjectOf(d2), (p: Project) => p.lastActivity);
  }

  /** The repository's project listing test: a project with two session files
      and an older one with a single, newer session file are listed newer
      first, each with its own session count. */
  lemma ListProjectsScenario(slug1: string, slug2: string, a: string, b: string, c: string, ta: Time, tb: Time, tc: Time)
    requires HasSuffix(a, JsonlSuffix) && HasSuffix(b, JsonlSuffix) && HasSuffix(c, JsonlSuffix)
    requires 0 < tc && ta < tc && tb < tc
    ensures
      var r := ListProjects(Listing([
                 DirEntry(slug1, true, [FileStat(a, Some(ta)), FileStat(b, Some(tb))]),
                 DirEntry(slug2, true, [FileStat(c, Some(tc))])]));
      && r.Success?
      && |r.value| == 2
      && r.value[0].slug == slug2 && r.value[0].sessionCount == 1
      && r.value[1].slug == slug1 && r.value[1].sessionCount == 2
  {
    var d1 := DirEntry(slug1, true, [FileStat(a, Some(ta)), FileStat(b, Some(tb))]);
    var d2 := DirEntry(slug2, true, [FileStat(c, Some(tc))]);
    SessionFilesAll(d1.children);
    SessionFilesAll(d2.children);
    assert LastActivity(d1.children) < tc by {
      assert LastActivity(d1.children) == 0 || exists i :: 0 <= i < 2 && d1.children[i].mtime == Some(LastActivity(d1.children));
      assert d1.children[0].mtime == Some(ta) && d1.children[1].mtime == Some(tb);
    }
    assert LastActivity(d2.children) == tc by {
      assert d2.children[0].mtime == Some(tc);
    }
    NewerProjectFirst(d1, d2);
  }
}

=== FILE: sequences.dfy ===
/** Generic sequence specifications shared by the aggregations: ordering by
    a key (newest first), and the "first value that is not the zero value"
    rule used for the model name, the session timestamp and the preview. */
module Sequences {

  /** Newest first: no element has a larger key than one before it. This is
      what `sort.Slice` with `a.After(b)` as its less-function guarantees. */
  ghost predicate SortedDesc<T>(xs: seq<T>, key: T -> int) {
    forall i, j :: 0 <= i < j < |xs| ==> key(xs[i]) >= key(xs[j])
  }

  /** Inserts `x` before the first element whose key is not larger. */
  function InsertDesc<T>(x: T, xs: seq<T>, key: T -> int): (r: seq<T>)
    requires SortedDesc(xs, key)
    ensures SortedDesc(r, key)
    ensures multiset(r) == multiset(xs) + multiset{x}
    ensures |r| == |xs| + 1
  {
    if |xs| == 0 then [x]
    else if key(x) >= key(xs[0]) then [x] + xs
    else
      var rest := InsertDesc(x, xs[1..], key);
      assert xs == [xs[0]] + xs[1..];
      assert forall k :: 0 <= k < |rest| ==> key(xs[0]) >= key(rest[k]) by {
        forall k | 0 <= k < |rest|
          ensures key(xs[0]) >= key(rest[k])
        {
          assert rest[k] in multiset(rest);
          assert rest[k] == x || rest[k] in multiset(xs[1..]);
          if rest[k] != x {
            var m :| 0 <= m < |xs[1..]| && xs[1..][m] == rest[k];
            assert xs[m + 1] == rest[k];
          }
        }
      }
      [xs[0]] + rest
  }

  /** A stand-in for `sort.Slice` by descending key: any sorted permutation
      is an acceptable result, since `sort.Slice` promises no tie order. */
  function SortDesc<T>(xs: seq<T>, key: T -> int): (r: seq<T>)
    ensures SortedDesc(r, key)
    ensures multiset(r) == multiset(xs)
    ensures |r| == |xs|
  {
    if |xs| == 0 then []
    else
      assert xs == [xs[0]] + xs[1..];
      InsertDesc(xs[0], SortDesc(xs[1..], key), key)
  }

  /** The value `f` gives the first element for which it is not `zero`, or
      `zero` when there is no such element: the "first seen wins" rule. */
  function FirstNonZero<T, V(==)>(xs: seq<T>, f: T -> V, zero: V): (r: V)
    ensures r == zero <==> forall i :: 0 <= i < |xs| ==> f(xs[i]) == zero
    ensures r != zero ==> exists i :: 0 <= i < |xs| && f(xs[i]) == r &&
                                      forall j :: 0 <= j < i ==> f(xs[j]) == zero
  {
    if |xs| == 0 then zero
    else if f(xs[0]) != zero then f(xs[0])
    else
      var r := FirstNonZero(xs[1..], f, zero);
      assert forall i :: 1 <= i < |xs| ==> xs[i] == xs[1..][i - 1];
      r
  }

  /** Once a non-zero value has been seen, later elements cannot change it. */
  lemma {:induction false} FirstNonZeroAppend<T, V>(xs: seq<T>, ys: seq<T>, f: T -> V, zero: V)
    ensures FirstNonZero(xs + ys, f, zero) ==
            if FirstNonZero(xs, f, zero) != zero then FirstNonZero(xs, f, zero)
            else FirstNonZero(ys, f, zero)
    decreases |xs|
  {
    if |xs| == 0 {
      assert xs + ys == ys;
    } else {
      assert (xs + ys)[0] == xs[0];
      assert (xs + ys)[1..] == xs[1..] + ys;
      if f(xs[0]) == zero {
        FirstNonZeroAppend(xs[1..], ys, f, zero);
      }
    }
  }

  /** Sorting two elements with different keys leaves a single possible
      order: the larger key first. */
  lemma SortedPair<T>(r: seq<T>, x: T, y: T, key: T -> int)
    requires multiset(r) == multiset{x, y}
    requires SortedDesc(r, key)
    requires key(x) < key(y)
    ensures r == [y, x]
  {
    assert |r| == |multiset(r)| == 2;
    assert r == [r[0], r[1]];
    assert multiset(r) == multiset{r[0], r[1]};
    assert key(r[0]) >= key(r[1]);
  }
}

=== FILE: server.dfy ===
/** The HTTP layer's decisions as pure functions of the request path: which
    handler a path reaches, how each handler cuts the path into a slug and
    a session identifier, and when it answers "not found", an internal
    error, or a page. The log directory is given as an abstract backend. */
module Server {
  import opened Wrappers
  import opened Strings
  import opened Sequences
  import opened Models
  import opened Slug
  import opened Materializer
  import opened Catalog

  const StatusOK := 200
  const StatusNotFound := 404
  const StatusInternalServerError := 500

  const ProjectsPrefix := "/projects/"
  const SessionsPrefix := "/sessions/"

  /** The three registered handlers. */
  datatype Handler = IndexHandler | ProjectHandler | SessionHandler

  /** The mux's choice among the patterns "/", "/projects/" and "/sessions/":
      the longest pattern that is a prefix of the path. */
  function Dispatch(path: string): (h: Handler)
    ensures h == ProjectHandler <==> HasPrefix(path, ProjectsPrefix)
    ensures h == SessionHandler <==> HasPrefix(path, SessionsPrefix)
  {
    if HasPrefix(path, ProjectsPrefix) then ProjectHandler
    else if HasPrefix(path, SessionsPrefix) then SessionHandler
    else IndexHandler
  }

  /** What a handler writes: `http.NotFound`, `http.Error` with a status and
      text, or one of the three pages with the data handed to its template. */
  datatype Response =
    | NotFound
    | ErrorPage(status: int, text: string)
    | IndexPage(projects: seq<Project>)
    | ProjectPage(slug: string, path: string, sessions: seq<Session>)
    | SessionPage(slug: string, path: string, sessionId: string, conversation: Conversation)

  function Status(r: Response): int {
    match r
    case NotFound => StatusNotFound
    case ErrorPage(status, _) => status
    case _ => StatusOK
  }

  /** The log directory as the handlers see it: the root listing, the glob
      result for a project slug, and the outcome of loading a session by
      slug and identifier. */
  datatype Backend = Backend(
    root: LogRoot,
    glob: string -> GlobResult,
    load: (string, string) -> Result<Conversation, IOError>)

  /** The index page: only the exact path "/", and an unreadable root is an
      internal error. */
  function HandleIndex(path: string, root: LogRoot): (r: Response)
    ensures Status(r) == StatusNotFound <==> path != "/"
    ensures Status(r) == StatusInternalServerError <==> path == "/" && root.Unreadable?
    ensures r.IndexPage? ==> SortedDesc(r.projects, (p: Project) => p.lastActivity) &&
                             multiset(r.projects) == multiset(Projects(root.entries))
    ensures r.IndexPage? <==> path == "/" && root.Listing?
    ensures !r.ProjectPage? && !r.SessionPage?
  {
    if path != "/" then NotFound
    else
      match ListProjects(root)
      case Failure(_) => ErrorPage(StatusInternalServerError, "Internal Server Error")
      case Success(projects) => IndexPage(projects)
  }

  /** `path` without `prefix` and then without one trailing '/'. */
  function TrimmedPath(path: string, prefix: string): (rest: string)
    ensures HasPrefix(path, prefix) ==>
              prefix + rest + (if HasSuffix(path, "/") && |path| > |prefix| then "/" else "") == path
    ensures |rest| <= |path|
  {
    var tail := TrimPrefix(path, prefix);
    var rest := TrimSuffix(tail, "/");
    if HasPrefix(path, prefix) then
      assert path == prefix + tail;
      assert |tail| > 0 ==> (HasSuffix(tail, "/") <==> HasSuffix(path, "/"));
      assert HasSuffix(tail, "/") ==> prefix + rest + "/" == prefix + (rest + "/");
      rest
    else
      rest
  }

  /** The slug of a project path: the path without "/projects/" and without
      one trailing '/'. */
  function ProjectSlug(path: string): (slug: string)
    ensures HasPrefix(path, ProjectsPrefix) ==>
              ProjectsPrefix + slug + (if HasSuffix(path, "/") && |path| > |ProjectsPrefix| then "/" else "") == path
    ensures |slug| <= |path|
  {
    TrimmedPath(path, ProjectsPrefix)
  }

  /** The project page: an empty slug is not found, a malformed glob is an
      internal error, and the page shows the decoded path of the slug. */
  function HandleProject(path: string, glob: string -> GlobResult): (r: Response)
    ensures r.NotFound? <==> ProjectSlug(path) == ""
    ensures Status(r) == StatusInternalServerError <==>
              ProjectSlug(path) != "" && glob(ProjectSlug(path)).BadPattern?
    ensures r.ProjectPage? ==>
              && r.slug == ProjectSlug(path)
              && r.path == DecodeSlug(r.slug)
              && SortedDesc(r.sessions, (s: Session) => s.timestamp)
              && multiset(r.sessions) == multiset(Loaded(glob(r.slug).files))
    ensures r.ProjectPage? <==> ProjectSlug(path) != "" && glob(ProjectSlug(path)).Matches?
    ensures !r.IndexPage? && !r.SessionPage?
  {
    var slug := ProjectSlug(path);
    if slug == "" then NotFound
    else
      match ListSessions(glob(slug))
      case Failure(_) => ErrorPage(StatusInternalServerError, "Internal Server Error")
      case Success(sessions) => ProjectPage(slug, DecodeSlug(slug), sessions)
  }

  /** The part of a session path after "/sessions/", without one trailing '/'. */
  function SessionParts(path: string): (parts: string)
    ensures HasPrefix(path, SessionsPrefix) ==>
              SessionsPrefix + parts + (if HasSuffix(path, "/") && |path| > |SessionsPrefix| then "/" else "") == path
    ensures |parts| <= |path|
  {
    TrimmedPath(path, SessionsPrefix)
  }

  /** The slug and session identifier of a session path: split at the first
      '/'; both halves must be non-empty, and the identifier may itself
      contain '/'. */
  function SessionTarget(path: string): (r: Option<(string, string)>)
    ensures r.Some? ==>
              && r.value.0 != "" && r.value.1 != ""
              && '/' !in r.value.0
              && SessionParts(path) == r.value.0 + "/" + r.value.1
  {
    var parts := SessionParts(path);
    var idx := IndexOf(parts, '/');
    if idx < 0 then None
    else
      var slug := parts[..idx];
      var sessionId := parts[idx + 1..];
      assert parts == slug + "/" + sessionId;
      if slug == "" || sessionId == "" then None else Some((slug, sessionId))
  }

  /** The split is the only one possible: whenever the parts are a
      non-empty slug without '/', a '/', and a non-empty identifier,
      `SessionTarget` finds exactly that slug and identifier. */
  lemma SessionTargetComplete(path: string, slug: string, sessionId: string)
    requires slug != "" && sessionId != "" && '/' !in slug
    requires SessionParts(path) == slug + "/" + sessionId
    ensures SessionTarget(path) == Some((slug, sessionId))
  {
    var parts := SessionParts(path);
    assert parts[..|slug|] == slug;
    assert parts[|slug|] == '/';
    assert IndexOf(parts, '/') == |slug|;
    assert parts[|slug| + 1..] == sessionId;
  }

  /** Routing round trip: the link "/sessions/<slug>/<id>" (with or without
      a trailing '/') leads back to that slug and identifier. */
  lemma {:induction false} SessionLinkRoundTrip(slug: string, sessionId: string, trailing: bool)
    requires slug != "" && sessionId != "" && '/' !in slug
    requires sessionId[|sessionId| - 1] != '/'
    ensures SessionTarget(SessionsPrefix + slug + "/" + sessionId + (if trailing then "/" else "")) ==
            Some((slug, sessionId))
  {
    var tail := slug + "/" + sessionId;
    var path := SessionsPrefix + slug + "/" + sessionId + (if trailing then "/" else "");
    assert path == SessionsPrefix + (tail + (if trailing then "/" else ""));
    assert HasPrefix(path, SessionsPrefix);
    assert TrimPrefix(path, SessionsPrefix) == tail + (if trailing then "/" else "");
    if trailing {
      assert HasSuffix(tail + "/", "/");
    } else {
      assert tail[|tail| - 1] == sessionId[|sessionId| - 1];
      assert !HasSuffix(tail, "/");
    }
    assert SessionParts(path) == tail;
    SessionTargetComplete(path, slug, sessionId);
  }

  /** Routing round trip for project links "/projects/<slug>". */
  lemma {:induction false} ProjectLinkRoundTrip(slug: string, trailing: bool)
    requires slug != "" && slug[|slug| - 1] != '/'
    ensures ProjectSlug(ProjectsPrefix + slug + (if trailing then "/" else "")) == slug
  {
    var path := ProjectsPrefix + slug + (if trailing then "/" else "");
    assert path == ProjectsPrefix + (slug + (if trailing then "/" else ""));
    assert HasPrefix(path, ProjectsPrefix);
    assert TrimPrefix(path, ProjectsPrefix) == slug + (if trailing then "/" else "");
    if trailing {
      assert HasSuffix(slug + "/", "/");
    } else {
      assert !HasSuffix(slug, "/");
    }
  }

  /** The session page: a path that does not split is not found, and so is
      every failure to load the session (never an internal error). */
  function HandleSession(path: string, load: (string, string) -> Result<Conversation, IOError>): (r: Response)
    ensures Status(r) == StatusNotFound <==>
              SessionTarget(path).None? || load(SessionTarget(path).value.0, SessionTarget(path).value.1).Failure?
    ensures Status(r) != StatusInternalServerError
    ensures r.SessionPage? ==>
              && SessionTarget(path) == Some((r.slug, r.sessionId))
              && r.path == DecodeSlug(r.slug)
              && load(r.slug, r.sessionId) == Success(r.conversation)
    ensures r.SessionPage? <==>
              SessionTarget(path).Some? && load(SessionTarget(path).value.0, SessionTarget(path).value.1).Success?
    ensures !r.IndexPage? && !r.ProjectPage?
  {
    match SessionTarget(path)
    case None => NotFound
    case Some((slug, sessionId)) =>
      match load(slug, sessionId)
      case Failure(_) => ErrorPage(StatusNotFound, "Not Found")
      case Success(conv) => SessionPage(slug, DecodeSlug(slug), sessionId, conv)
  }

  /** The whole server: the mux followed by the chosen handler. */
  function Serve(path: string, backend: Backend): (r: Response)
    ensures r.IndexPage? ==> path == "/"
    ensures r.ProjectPage? ==> HasPrefix(path, ProjectsPrefix)
    ensures r.SessionPage? ==> HasPrefix(path, SessionsPrefix)
    ensures path == "/" ==> (r.IndexPage? <==> backend.root.Listing?)
    ensures HasPrefix(path, ProjectsPrefix) ==>
              (r.ProjectPage? <==> ProjectSlug(path) != "" && backend.glob(ProjectSlug(path)).Matches?)
    ensures HasPrefix(path, SessionsPrefix) ==>
              (r.SessionPage? <==>
                 SessionTarget(path).Some? &&
                 backend.load(SessionTarget(path).value.0, SessionTarget(path).value.1).Success?)
  {
    match Dispatch(path)
    case IndexHandler => HandleIndex(path, backend.root)
    case ProjectHandler => HandleProject(path, backend.glob)
    case SessionHandler => HandleSession(path, backend.load)
  }

  /** Paths outside the three subtrees, such as "/nonexistent", are not
      found. */
  lemma UnknownPathNotFound(backend: Backend)
    ensures Serve("/nonexistent", backend) == NotFound
  {
    var p := "/nonexistent";
    assert p[1] == 'n';
    assert !HasPrefix(p, ProjectsPrefix) by { assert ProjectsPrefix[1] == 'p'; }
    assert !HasPrefix(p, SessionsPrefix) by { assert SessionsPrefix[1] == 's'; }
  }

  /** "/projects/" with no slug is not found. */
  lemma EmptySlugNotFound(backend: Backend)
    ensures Serve(ProjectsPrefix, backend) == NotFound
  {
    assert HasPrefix(ProjectsPrefix, ProjectsPrefix);
    assert TrimPrefix(ProjectsPrefix, ProjectsPrefix) == "";
  }

  /** A session path holding only a slug is not found. */
  lemma SlugOnlySessionNotFound(backend: Backend, slug: string)
    requires slug != "" && '/' !in slug
    ensures Serve(SessionsPrefix + slug, backend) == NotFound
  {
    var p := SessionsPrefix + slug;
    assert HasPrefix(p, SessionsPrefix);
    assert !HasPrefix(p, ProjectsPrefix) by {
      assert p[1] == 's' && ProjectsPrefix[1] == 'p';
    }
    assert TrimPrefix(p, SessionsPrefix) == slug;
    assert !HasSuffix(slug, "/") by { assert slug[|slug| - 1] in slug; }
  }

  /** `hasText`: whether some block is a text block with non-empty text. */
  predicate ShowsText(blocks: seq<ContentBlock>) {
    exists i :: 0 <= i < |blocks| && blocks[i].blockType == "text" && blocks[i].text != ""
  }

  method HasText(blocks: seq<ContentBlock>) returns (b: bool)
    ensures b <==> ShowsText(blocks)
  {
    var i := 0;
    while i < |blocks|
      invariant 0 <= i <= |blocks|
      invariant forall j :: 0 <= j < i ==> !(blocks[j].blockType == "text" && blocks[j].text != "")
    {
      if blocks[i].blockType == "text" && blocks[i].text != "" {
        return true;
      }
      i := i + 1;
    }
    return false;
  }

  /** Appending blocks never hides text, and the answer does not depend on
      the order of the blocks. */
  lemma ShowsTextMonotone(xs: seq<ContentBlock>, ys: seq<ContentBlock>)
    ensures ShowsText(xs) ==> ShowsText(xs + ys)
    ensures ShowsText(ys) ==> ShowsText(xs + ys)
  {
    if ShowsText(xs) {
      var i :| 0 <= i < |xs| && xs[i].blockType == "text" && xs[i].text != "";
      assert (xs + ys)[i] == xs[i];
    }
    if ShowsText(ys) {
      var i :| 0 <= i < |ys| && ys[i].blockType == "text" && ys[i].text != "";
      assert (xs + ys)[|xs| + i] == ys[i];
    }
  }

  lemma {:induction false} ShowsTextOrderFree(xs: seq<ContentBlock>, ys: seq<ContentBlock>)
    requires multiset(xs) == multiset(ys)
    ensures ShowsText(xs) <==> ShowsText(ys)
  {
    if ShowsText(xs) {
      var i :| 0 <= i < |xs| && xs[i].blockType == "text" && xs[i].text != "";
      assert xs[i] in multiset(ys);
      var j :| 0 <= j < |ys| && ys[j] == xs[i];
    }
    if ShowsText(ys) {
      var i :| 0 <= i < |ys| && ys[i].blockType == "text" && ys[i].text != "";
      assert ys[i] in multiset(xs);
      var j :| 0 <= j < |xs| && xs[j] == ys[i];
    }
  }
}

=== FILE: slug.dfy ===
/** Slugs: directory names made by the logging client from an absolute
    workspace path by writing every '/' as '-'. Decoding turns every '-'
    back into '/'; it is lossy, since a '-' of the original path comes back
    as a '/'. */
module Slug {

  function DecodeChar(c: char): char {
    if c == '-' then '/' else c
  }

  /** Replaces every '-' of the slug by '/', character by character. */
  function DecodeSlug(slug: string): (path: string)
    ensures |path| == |slug|
    ensures forall i :: 0 <= i < |slug| ==> path[i] == DecodeChar(slug[i])
    ensures '-' !in path
  {
    if |slug| == 0 then ""
    else [DecodeChar(slug[0])] + DecodeSlug(slug[1..])
  }

  /** What the logging client does to a workspace path to name its directory. */
  function EncodePath(path: string): (slug: string)
    ensures |slug| == |path|
    ensures forall i :: 0 <= i < |path| ==> slug[i] == (if path[i] == '/' then '-' else path[i])
    ensures '/' !in slug
  {
    if |path| == 0 then ""
    else [if path[0] == '/' then '-' else path[0]] + EncodePath(path[1..])
  }

  /** Decoding undoes encoding for every path that has no '-' of its own. */
  lemma {:induction false} DecodeEncode(path: string)
    requires '-' !in path
    ensures DecodeSlug(EncodePath(path)) == path
  {
    if |path| > 0 {
      assert path[1..] <= path[1..];
      assert forall c :: c in path[1..] ==> c in path;
      DecodeEncode(path[1..]);
      assert EncodePath(path)[1..] == EncodePath(path[1..]);
    }
  }

  /** Encoding undoes decoding for every slug that has no '/' of its own. */
  lemma {:induction false} EncodeDecode(slug: string)
    requires '/' !in slug
    ensures EncodePath(DecodeSlug(slug)) == slug
  {
    if |slug| > 0 {
      assert forall c :: c in slug[1..] ==> c in slug;
      EncodeDecode(slug[1..]);
      assert DecodeSlug(slug)[1..] == DecodeSlug(slug[1..]);
    }
  }

  /** The encoding is not injective: "/a-b" and "/a/b" share the slug "-a-b",
      which decodes to "/a/b". */
  lemma DecodeIsLossy()
    ensures EncodePath("/a-b") == EncodePath("/a/b") == "-a-b"
    ensures DecodeSlug("-a-b") == "/a/b"
  {
  }
}

=== FILE: strings.dfy ===
/** The few functions of Go's `strings` and `path/filepath` packages the
    core relies on, over strings viewed as byte sequences (one `char` per
    byte). */
module Strings {

  predicate HasPrefix(s: string, prefix: string) {
    |prefix| <= |s| && s[..|prefix|] == prefix
  }

  predicate HasSuffix(s: string, suffix: string) {
    |suffix| <= |s| && s[|s| - |suffix|..] == suffix
  }

  /** `strings.TrimPrefix`: removes one leading `prefix` if present. */
  function TrimPrefix(s: string, prefix: string): (r: string)
    ensures HasPrefix(s, prefix) ==> prefix + r == s
    ensures !HasPrefix(s, prefix) ==> r == s
  {
    if HasPrefix(s, prefix) then s[|prefix|..] else s
  }

  /** `strings.TrimSuffix`: removes one trailing `suffix` if present. */
  function TrimSuffix(s: string, suffix: string): (r: string)
    ensures HasSuffix(s, suffix) ==> r + suffix == s
    ensures !HasSuffix(s, suffix) ==> r == s
  {
    if HasSuffix(s, suffix) then s[..|s| - |suffix|] else s
  }

  /** `strings.Index` with a one-byte separator: the position of the first
      occurrence of `c`, or -1 when there is none. */
  function IndexOf(s: string, c: char): (i: int)
    ensures i == -1 <==> c !in s
    ensures i != -1 ==> 0 <= i < |s| && s[i] == c && c !in s[..i]
  {
    if |s| == 0 then -1
    else if s[0] == c then 0
    else
      var k := IndexOf(s[1..], c);
      if k == -1 then -1
      else
        assert s[1..][..k] == s[1..k + 1];
        k + 1
  }

  /** Drops every trailing '/' (the first step of `filepath.Base`). */
  function StripTrailingSlashes(s: string): (r: string)
    ensures HasPrefix(s, r)
    ensures |r| == 0 || r[|r| - 1] != '/'
    ensures forall i :: |r| <= i < |s| ==> s[i] == '/'
  {
    if |s| == 0 || s[|s| - 1] != '/' then s
    else StripTrailingSlashes(s[..|s| - 1])
  }

  /** The part of `s` after its last '/' (all of `s` when there is none). */
  function LastElement(s: string): (r: string)
    ensures HasSuffix(s, r)
    ensures '/' !in r
    ensures |r| < |s| ==> s[|s| - |r| - 1] == '/'
  {
    if |s| == 0 then ""
    else if s[|s| - 1] == '/' then ""
    else LastElement(s[..|s| - 1]) + [s[|s| - 1]]
  }

  /** `r` is the last element of `s`: a suffix without '/' that is all of
      `s` or follows a '/'. */
  predicate IsLastElement(s: string, r: string) {
    && HasSuffix(s, r) && '/' !in r
    && (|r| == |s| || s[|s| - |r| - 1] == '/')
  }

  /** `filepath.Base` on a Unix system: the last path element, ignoring
      trailing slashes; "." for the empty path and "/" for a path of
      slashes only. */
  function BaseName(path: string): (r: string)
    ensures r != ""
    ensures r == "/" || '/' !in r
    ensures path == "" ==> r == "."
    ensures path != "" && StripTrailingSlashes(path) == "" ==> r == "/"
    ensures StripTrailingSlashes(path) != "" ==> IsLastElement(StripTrailingSlashes(path), r)
  {
    if path == "" then "."
    else
      var stripped := StripTrailingSlashes(path);
      if stripped == "" then "/" else LastElement(stripped)
  }

  /** The base name of a file inside a directory is the file's own name. */
  lemma {:induction false} BaseNameOfJoin(dir: string, name: string)
    requires name != "" && '/' !in name
    ensures BaseName(dir + "/" + name) == name
  {
    var path := dir + "/" + name;
    assert path[|path| - 1] == name[|name| - 1];
    assert StripTrailingSlashes(path) == path;
    LastElementAfterSlash(dir + "/", name);
  }

  lemma {:induction false} LastElementAfterSlash(prefix: string, name: string)
    requires |prefix| > 0 && prefix[|prefix| - 1] == '/'
    requires '/' !in name
    ensures LastElement(prefix + name) == name
    decreases |name|
  {
    if |name| == 0 {
      assert prefix + name == prefix;
    } else {
      var s := prefix + name;
      assert s[..|s| - 1] == prefix + name[..|name| - 1];
      assert s[|s| - 1] == name[|name| - 1];
      assert name[|name| - 1] in name;
      LastElementAfterSlash(prefix, name[..|name| - 1]);
      assert name[..|name| - 1] + [name[|name| - 1]] == name;
    }
  }
}

=== FILE: wrappers.dfy ===
/** Failure-carrying wrappers used for Go's `(value, error)` returns and
    for optional (pointer-typed) fields. */
module Wrappers {

  /** An optional value: `nil` pointers and absent JSON fields. */
  datatype Option<+T> = None | Some(value: T)

  /** A value or an error, as in Go's `(T, error)` result pairs. */
  datatype Result<+T, +E> = Success(value: T) | Failure(error: E)
}
